=== FILE: README.md ===
# dabble flat-file result storage, modelled in Dafny

This project models `FSResultStorage`, the flat-file backend of the dabble
A/B-testing library. The backend keeps three append-only files in one
directory:

- `tests`: test definitions `{t: test name, a: alternatives}`;
- `alts`: assignments `{i: identity, t: test name, n: alternative index}`;
- `results`: events `{i, t, n, a: action, c: completed flag}`.

Every operation scans files, appends one line, or both:

- `find_lines` yields, in file order, each parsed record that holds every
  field of a pattern with an equal value.
- `find_line` takes the first of those records.
- `append_line` adds one record at the end of a file.
- `save_test` and `set_alternative` check the first matching line and then
  append one line.
- `get_alternative` and `is_completed` are lookups.
- `ab_report` folds the test's events into a two-step funnel. For each
  alternative it counts the identities that performed action `a`, and those
  that performed `b` after their own `a`.

The model works on decoded lines. A line is either `Malformed` (the JSON
parser rejects it) or `Parsed(record)`. A record is a map from field names
to JSON values (`Json.Value`: null, booleans, integers, strings, arrays).
A file is a `seq<Line>`, oldest line first. A file that does not exist is
the empty sequence.

Records are untyped maps, as in the Python code. So a record that lacks a field
an operation reads with `record[key]` raises `KeyError`. A field of the
wrong kind raises `TypeError`, and an index outside the alternatives raises
`IndexError`. These raises come back as `Err`/`Fail` values of
`Errors.Error`, not as preconditions.

`save_test` and `set_alternative` return a `Storage.Write`: the outcome and the three files afterwards. `record` cannot raise in the model, so it returns the new `Storage.Store`.
Queries are pure functions of the files.

Modules: `Wrappers` (Option, Result, Outcome), `Json`, `Errors`, `Log`
(the module-level functions of `dabble/backends/fs.py`), `Storage` (the
`FSResultStorage` methods except `ab_report`), `Funnel` (the loop of
`ab_report`), `Reporting` (`ab_report` itself) and `Scenarios` (the
funnel example: test x with alternatives A and B, users u1 to u3).

The model follows the code on these points:

- `save_test` appends a new definition every time it succeeds, including an
  identical re-registration. Only the first definition is ever consulted.
- `set_alternative` and `save_test` raise `KeyError` when the first matching
  line lacks the field they compare (`n`, `a`).
- `get_alternative` returns None both when nothing is assigned and when the
  first assignment lacks `n`.

## Model

| member | source | states |
|---|---|---|
| Log.FindLines | dabble/backends/fs.py:35-54 | the records found are never more than the lines scanned |
| Log.FindLinesMembers | dabble/backends/fs.py:35-54 | a record is found iff some line parses to it and every pattern key is present in it with an equal value; extra keys are ignored |
| Log.FindLinesConcat | dabble/backends/fs.py:43-54 | scanning a file split in two yields the first part's matches followed by the second part's, so the output keeps file order |
| Log.FindLinesSingle | dabble/backends/fs.py:46-54 | a single line yields its record iff it parses and matches, and otherwise nothing |
| Log.FindLinesSkipsMalformed | dabble/backends/fs.py:46-49 | an unparseable line anywhere in a file does not change what a query finds |
| Log.ScanLines | dabble/backends/fs.py:43-54 | the line-by-line generator loop computes exactly the records `find_lines` specifies |
| Log.FirstMatch | dabble/backends/fs.py:60-62 | the index returned is the first matching line: it matches and no earlier line does, or no line matches at all |
| Log.FindLine | dabble/backends/fs.py:56-62 | None iff no line matches; otherwise the record of a matching line before which no line matches |
| Log.FindLineIsFirstFound | dabble/backends/fs.py:56-62 | `find_line` is None iff `find_lines` yields nothing, and otherwise is the first record it yields |
| Log.ScanFirst | dabble/backends/fs.py:60-62 | the early-returning loop of `find_line` returns the first match, or None after the last line |
| Log.AppendLine | dabble/backends/fs.py:65-75 | exactly one line is added, at the end, holding the record; every earlier line is untouched |
| Log.FindLinesAfterAppend | dabble/backends/fs.py:65-75 | after an append, a query finds what it found before, followed by the new record iff it matches |
| Log.FindLineAfterAppend | dabble/backends/fs.py:56-75 | an append never changes an existing first match; the new record becomes the first match only when there was none |
| Storage.SaveTest | dabble/backends/fs.py:102-108 | it succeeds iff the first definition of the test (if any) has exactly the given alternatives; then exactly one definition is appended to `tests`; on failure no file changes; `results` and `alts` never change; a conflict is raised iff the first definition has an `a` that differs, and a `KeyError` iff it has no `a` |
| Storage.SaveTestDefines | dabble/backends/fs.py:102-108 | after a successful `save_test` the test's first definition has the given alternatives |
| Storage.SaveTestTwice | dabble/backends/fs.py:102-108 | registering the same alternatives twice succeeds both times and stores two identical definitions |
| Storage.SaveTestConflicts | dabble/backends/fs.py:102-108 | once a test is registered, registering different alternatives raises a conflict and leaves every file unchanged |
| Storage.RecordEvent | dabble/backends/fs.py:110-112 | `record` appends exactly one event with all five fields to `results` and leaves `tests` and `alts` unchanged |
| Storage.IsCompleted | dabble/backends/fs.py:114-116 | true iff some parsed line anywhere in `results` has that identity, test and alternative with `c` true |
| Storage.RecordCompletes | dabble/backends/fs.py:110-116 | after recording an event with `c` true, `is_completed` holds for its identity, test and alternative |
| Storage.RecordKeepsCompletion | dabble/backends/fs.py:110-116 | recording never turns a completion off, and recording an event with `c` false changes no answer of `is_completed` |
| Storage.IsCompletedIgnoresOrder | dabble/backends/fs.py:114-116 | two result files holding the same lines, in any order or multiplicity, give the same answer |
| Storage.SetAlternative | dabble/backends/fs.py:118-124 | it succeeds iff there is no assignment of (identity, test) or the first one has the same `n`; a conflict is raised iff the first assignment has an `n` that differs, and a `KeyError` iff it has no `n`; on success exactly one assignment is appended to `alts`; on failure no file changes; `tests` and `results` never change |
| Storage.GetAlternative | dabble/backends/fs.py:126-128 | the `n` of the first line that assigns the identity in the test, or None when that line has no `n` or no line assigns it |
| Storage.SetThenGet | dabble/backends/fs.py:118-128 | after a successful `set_alternative`, `get_alternative` returns that alternative |
| Storage.SetAlternativeConflicts | dabble/backends/fs.py:118-128 | once an identity is assigned, assigning a different alternative in the same test raises a conflict, changes nothing, and `get_alternative` still returns the first alternative |
| Funnel.Index | dabble/backends/fs.py:145 | Python list indexing of the slots: succeeds iff `n` is an integer (or boolean) in [-k, k), giving `n` or `n + k` below k; otherwise `TypeError` for a non-integer and `IndexError` for one out of range |
| Funnel.Step | dabble/backends/fs.py:144-149 | one loop iteration raises iff the event lacks `n`, has an unusable `n`, lacks `a`, or is an `a`/`b` action whose `i` is missing or unhashable; otherwise it keeps the number of slots and keeps every completed set inside its attempted set |
| Funnel.Run | dabble/backends/fs.py:144-149 | the loop over the events raises iff some event would raise; on success it returns one slot per alternative, each with its completed set inside its attempted set |
| Funnel.StepEffect | dabble/backends/fs.py:146-149 | an `a` event adds its identity to its alternative's attempted set; a `b` event (not also `a`) adds it to the completed set only when that identity is already attempted there; no other slot changes |
| Funnel.RunComputesFunnel | dabble/backends/fs.py:144-149 | for every alternative, attempted is every identity with an `a` event on it, and completed is every identity with a `b` event on it that comes after one of its own `a` events on it |
| Funnel.RunRaisesFirstError | dabble/backends/fs.py:144-149 | a failing loop raises the error of the earliest event that raises one |
| Funnel.RunIgnoresCompletionFlag | dabble/backends/fs.py:144-149 | events that differ only in `c` give the same result |
| Reporting.SlotCount | dabble/backends/fs.py:137-141 | iterating the alternatives succeeds iff they are a list or a string; a list gives one slot per element and a string one per character; anything else raises `TypeError` |
| Reporting.AbReport | dabble/backends/fs.py:130-155 | raises "unknown test" iff the test has no definition; raises `KeyError` when the first definition has no `a`, and `TypeError` when its `a` is not iterable; on success it reports the test name, the first definition's alternatives, one tally per alternative, and completed <= attempted in every tally; when the definition's alternatives are iterable it raises iff some event of the test would raise |
| Reporting.AbReportRaisesFirstError | dabble/backends/fs.py:144-149 | when the definition is usable and the report fails, it raises the error of the earliest event of the test that raises one |
| Reporting.AbReportCounts | dabble/backends/fs.py:130-155 | each tally is the size of the reference attempted set and the reference completed set of the test's events |
| Reporting.AbReportSameAction | dabble/backends/fs.py:146-149 | when both funnel actions are the same, no alternative has a completion |
| Scenarios.ExampleRun | dabble/backends/fs.py:144-149 | on the example events the loop yields {u1}/{u1} for alternative 0 and {u3}/{} for alternative 1; u2's conversion without a prior "shown" is not counted |
| Scenarios.ExampleWrites | dabble/backends/fs.py:102-112 | registering "x" with alternatives A and B succeeds, and with the four recorded events it leaves exactly the example files |
| Scenarios.FunnelExample | dabble/backends/fs.py:130-155 | on the example files the report is attempted 1 / completed 1 for A and attempted 1 / completed 0 for B |

## Left out

- The `FileLock`, the global `lock` and the lock file (fs.py lines 64, 69, 72, 89, 96): they only provide cross-process mutual exclusion. The model is sequential, and each operation sees the files as the previous operation left them.
- The time-of-check/time-of-use gap between `find_line` and `append_line` in `save_test` and `set_alternative`: it shows only with concurrent writers.
- File I/O: `exists`, the Python 2 builtin `file` (opened for reading, and in append mode for writing), seek-to-end, `abspath` and `join`. The directory check in `__init__` is also left out. A missing file is the empty log, and each file is given as its sequence of lines.
- JSON text: `json.dumps` and `json.loads` belong to an external library. Appending a record is modelled as appending `Parsed(record)`, which assumes that decoding the encoded line gives the record back. Parse failures are the `Malformed` lines.
- Lines that parse to JSON other than an object (a bare number, string or array) are not modelled. The engine only writes objects.
- JSON floats and nested objects are not in `Json.Value`, which holds null, booleans, integers, strings and arrays. Lines already in a file may hold any of those values in any field.
- Storage.SaveTest, Storage.RecordEvent, Storage.IsCompleted, Storage.SetAlternative, Reporting.AbReport: only the identity is an arbitrary `Json.Value`. Test names and actions are strings, an alternative index is an integer, the alternatives passed to `save_test` are a list (written as an array), and `completed` is a boolean. `append_line` stores whatever the caller passes, so Python calls such as `set_alternative(u, "x", None)` (which stores `n: null`, so `get_alternative` returns None and every later assignment of that identity in that test conflicts) or `save_test("x", "AB")` (which stores a string that `ab_report` iterates as two slots) are not modelled as calls; the model only reaches such values as lines already in a file, where `GetAlternative`, `SetAlternative`, `SlotCount` and `AbReport` handle them.
- Log.AppendLine: assumes the last line of the file is newline-terminated. `append_line` writes the new line at the end of the file with no separator, so after a partial last line (no newline) the new record would be glued onto it and become unparseable. Every lemma about the files after a write assumes this (`FindLinesAfterAppend`, `FindLineAfterAppend`, `SaveTestDefines`, `SaveTestTwice`, `SetThenGet`, `SetAlternativeConflicts`, `RecordCompletes`, `RecordKeepsCompletion`, `ExampleWrites`); a last line missing only its newline is lost too once the next line is glued to it.
- Storage.SaveTest: compares alternatives with structural equality, so Python's `[1] != [True]` being false is not modelled; a re-registration with `True` for `1` is a conflict in the model but succeeds in Python.
- Storage.SetAlternative: compares `n` with structural equality, so an existing `n` of `true` conflicts with alternative 1 in the model but not in Python.
- Funnel.Step: identity sets use structural equality, so the identities `1` and `true` (or `0` and `false`) are two members in the model but one in Python's set, and the membership test for a `b` event also treats them as different, so the model's attempted counts can be higher and its completed counts lower.
- Log.Matches: uses structural equality, so Python's `1 == True` and `0 == False` do not make an integer field match a boolean pattern value. A boolean used as a list index is modelled (True is 1).
- Funnel.Hashable: only arrays are unhashable, because the model has no JSON objects.
- The `completed=False` default of `record` is not modelled: `RecordEvent` takes the flag explicitly.
- The abstract `ResultStorage` base class imported from `dabble` is not part of this model.

=== FILE: errors.dfy ===
/** The exceptions the storage engine raises. */
module Errors {

  import opened Json

  datatype Error =
    /** `save_test`: the test is already registered with other alternatives. */
    | TestConflict(test: string)
    /** `set_alternative`: the identity already has another alternative. */
    | AlternativeConflict(identity: Value)
    /** `ab_report`: no definition of the test exists. */
    | UnknownTest(test: string)
    /** A record lacks a field the operation reads with `record[key]`. */
    | KeyError(key: string)
    /** A field holds a value of the wrong kind (not iterable, not an index, unhashable). */
    | TypeError
    /** A list index outside the list. */
    | IndexError
}

=== FILE: funnel.dfy ===
/**
  The aggregation loop of `ab_report`: a left fold over the test's result
  events, in file order, that keeps for every alternative the set of
  identities that performed action `a` (attempted) and the set of those
  that afterwards performed action `b` (completed).
*/
module Funnel {

  import opened Wrappers
  import opened Json
  import opened Errors

  /** The two identity sets kept for one alternative. */
  datatype Slot = Slot(attempted: set<Value>, completed: set<Value>)

  /** Python treats booleans as the integers 0 and 1 when they index a list. */
  predicate IntLike(v: Value)
  {
    v.Num? || v.Bool?
  }

  function AsInt(v: Value): int
    requires IntLike(v)
  {
    if v.Num? then v.n else if v.b then 1 else 0
  }

  /** JSON arrays decode to Python lists, which cannot be put in a set. */
  predicate Hashable(v: Value)
  {
    !v.Arr?
  }

  /** Python's `results[n]` on a list of `k` slots: negative indices count from the end. */
  function Index(n: Value, k: nat): (r: Result<nat, Error>)
    ensures r.Ok? <==> IntLike(n) && -(k as int) <= AsInt(n) < k
    ensures r.Ok? ==> r.value < k && (r.value == AsInt(n) || r.value == AsInt(n) + k)
    ensures r.Err? ==> r.error == if IntLike(n) then IndexError else TypeError
  {
    if !IntLike(n) then Err(TypeError)
    else if 0 <= AsInt(n) < k then Ok(AsInt(n))
    else if -(k as int) <= AsInt(n) < 0 then Ok(AsInt(n) + k)
    else Err(IndexError)
  }

  /** Every identity counted as completed was also counted as attempted. */
  predicate Nested(slots: seq<Slot>)
  {
    forall j :: 0 <= j < |slots| ==> slots[j].completed <= slots[j].attempted
  }

  function EmptySlots(k: nat): (slots: seq<Slot>)
    ensures |slots| == k
    ensures forall j :: 0 <= j < k ==> slots[j] == Slot({}, {})
  {
    seq(k, _ => Slot({}, {}))
  }

  /**
    The exception one event raises, whatever the sets hold: a missing or
    unusable `n`, a missing `a`, and, for an event whose action is `a` or
    `b`, a missing or unhashable `i`.
  */
  function EventError(e: Record, k: nat, a: string, b: string): Option<Error>
  {
    if "n" !in e then Some(KeyError("n"))
    else if Index(e["n"], k).Err? then Some(Index(e["n"], k).error)
    else if "a" !in e then Some(KeyError("a"))
    else if e["a"] != Str(a) && e["a"] != Str(b) then None
    else if "i" !in e then Some(KeyError("i"))
    else if !Hashable(e["i"]) then Some(TypeError)
    else None
  }

  /** One iteration of the loop over the events. */
  function Step(slots: seq<Slot>, e: Record, a: string, b: string): (r: Result<seq<Slot>, Error>)
    ensures r.Err? <==> EventError(e, |slots|, a, b).Some?
    ensures r.Err? ==> r.error == EventError(e, |slots|, a, b).value
    ensures r.Ok? ==> |r.value| == |slots|
    ensures r.Ok? && Nested(slots) ==> Nested(r.value)
  {
    if "n" !in e then Err(KeyError("n"))
    else
      var j :- Index(e["n"], |slots|);
      if "a" !in e then Err(KeyError("a"))
      else if e["a"] == Str(a) then
        if "i" !in e then Err(KeyError("i"))
        else if !Hashable(e["i"]) then Err(TypeError)
        else Ok(slots[j := Slot(slots[j].attempted + {e["i"]}, slots[j].completed)])
      else if e["a"] == Str(b) then
        if "i" !in e then Err(KeyError("i"))
        else if !Hashable(e["i"]) then Err(TypeError)
        else if e["i"] in slots[j].attempted then
          Ok(slots[j := Slot(slots[j].attempted, slots[j].completed + {e["i"]})])
        else Ok(slots)
      else Ok(slots)
  }

  /** The loop over all events, from `k` empty slots: the prefix is folded first, then the last event. */
  function Run(events: seq<Record>, k: nat, a: string, b: string): (r: Result<seq<Slot>, Error>)
    ensures r.Ok? ==> |r.value| == k && Nested(r.value)
    ensures r.Err? <==> exists p :: 0 <= p < |events| && EventError(events[p], k, a, b).Some?
    ensures r.Err? ==> r.error.KeyError? || r.error.TypeError? || r.error.IndexError?
    decreases |events|
  {
    if events == [] then Ok(EmptySlots(k))
    else
      var prefix := events[..|events| - 1];
      assert forall p :: 0 <= p < |prefix| ==> prefix[p] == events[p];
      var slots :- Run(prefix, k, a, b);
      Step(slots, events[|events| - 1], a, b)
  }

  // Reference definition of the funnel, by positions in the event sequence.

  /** Event `e` is an `a` action on alternative `j`. */
  predicate AttemptOf(e: Record, k: nat, a: string, j: nat)
  {
    "n" in e && Index(e["n"], k) == Ok(j) && "a" in e && e["a"] == Str(a) && "i" in e
  }

  /** Event `e` is a `b` action on alternative `j` that is not also an `a` action. */
  predicate CompletionOf(e: Record, k: nat, a: string, b: string, j: nat)
  {
    "n" in e && Index(e["n"], k) == Ok(j) && "a" in e && e["a"] == Str(b) && e["a"] != Str(a) && "i" in e
  }

  /** Some event before position `q` is an `a` action by the same identity on alternative `j`. */
  predicate AttemptedBefore(events: seq<Record>, k: nat, a: string, j: nat, q: nat)
    requires q < |events| && "i" in events[q]
  {
    exists p :: 0 <= p < q && AttemptOf(events[p], k, a, j) && events[p]["i"] == events[q]["i"]
  }

  /** The identities with an `a` action on alternative `j` anywhere in the events. */
  function Attempted(events: seq<Record>, k: nat, a: string, j: nat): set<Value>
  {
    set p | 0 <= p < |events| && AttemptOf(events[p], k, a, j) :: events[p]["i"]
  }

  /** The identities with a `b` action on alternative `j` preceded by their own `a` action on `j`. */
  function Completed(events: seq<Record>, k: nat, a: string, b: string, j: nat): set<Value>
  {
    set q | 0 <= q < |events| && CompletionOf(events[q], k, a, b, j) && AttemptedBefore(events, k, a, j, q)
          :: events[q]["i"]
  }

  /** The identity an event adds to the attempted set of alternative `j`. */
  function AttemptIds(e: Record, k: nat, a: string, j: nat): set<Value>
  {
    if AttemptOf(e, k, a, j) then {e["i"]} else {}
  }

  /** The identity an event adds to the completed set of alternative `j`, given the identities attempted so far. */
  function CompletionIds(e: Record, k: nat, a: string, b: string, j: nat, seen: set<Value>): set<Value>
  {
    if CompletionOf(e, k, a, b, j) && e["i"] in seen then {e["i"]} else {}
  }

  /** What one successful iteration does to each alternative's sets. */
  lemma StepEffect(slots: seq<Slot>, e: Record, a: string, b: string)
    requires Step(slots, e, a, b).Ok?
    ensures forall j :: 0 <= j < |slots| ==>
              Step(slots, e, a, b).value[j]
              == Slot(slots[j].attempted + AttemptIds(e, |slots|, a, j),
                      slots[j].completed + CompletionIds(e, |slots|, a, b, j, slots[j].attempted))
  {
    var k := |slots|;
    var r := Step(slots, e, a, b).value;
    var j0 := Index(e["n"], k).value;
    forall j | 0 <= j < k
      ensures r[j] == Slot(slots[j].attempted + AttemptIds(e, k, a, j),
                           slots[j].completed + CompletionIds(e, k, a, b, j, slots[j].attempted))
    {
      if j != j0 {
        assert !AttemptOf(e, k, a, j) && !CompletionOf(e, k, a, b, j);
      }
    }
  }

  /** The reference attempted set grows by the last event's contribution. */
  lemma AttemptedSnoc(events: seq<Record>, k: nat, a: string, j: nat)
    requires events != []
    ensures Attempted(events, k, a, j)
            == Attempted(events[..|events| - 1], k, a, j) + AttemptIds(events[|events| - 1], k, a, j)
  {
    var n := |events| - 1;
    var prefix := events[..n];
    var lhs := Attempted(events, k, a, j);
    var rhs := Attempted(prefix, k, a, j) + AttemptIds(events[n], k, a, j);
    forall x | x in lhs ensures x in rhs {
      var p :| 0 <= p < |events| && AttemptOf(events[p], k, a, j) && events[p]["i"] == x;
      if p < n {
        assert prefix[p] == events[p];
      }
    }
    forall x | x in rhs ensures x in lhs {
      if x in Attempted(prefix, k, a, j) {
        var p :| 0 <= p < |prefix| && AttemptOf(prefix[p], k, a, j) && prefix[p]["i"] == x;
        assert events[p] == prefix[p];
      } else {
        assert AttemptOf(events[n], k, a, j) && events[n]["i"] == x;
      }
    }
  }

  /** Whether an earlier attempt exists for a position of the prefix does not depend on later events. */
  lemma AttemptedBeforeInPrefix(events: seq<Record>, k: nat, a: string, j: nat, q: nat)
    requires q < |events| - 1 && "i" in events[q]
    ensures AttemptedBefore(events, k, a, j, q) <==> AttemptedBefore(events[..|events| - 1], k, a, j, q)
  {
    var prefix := events[..|events| - 1];
    if AttemptedBefore(events, k, a, j, q) {
      var p :| 0 <= p < q && AttemptOf(events[p], k, a, j) && events[p]["i"] == events[q]["i"];
      assert prefix[p] == events[p];
    }
    if AttemptedBefore(prefix, k, a, j, q) {
      var p :| 0 <= p < q && AttemptOf(prefix[p], k, a, j) && prefix[p]["i"] == prefix[q]["i"];
      assert prefix[p] == events[p];
    }
  }

  /** The last event has an earlier attempt by its identity exactly when the identity is attempted in the prefix. */
  lemma AttemptedBeforeLast(events: seq<Record>, k: nat, a: string, j: nat)
    requires events != [] && "i" in events[|events| - 1]
    ensures AttemptedBefore(events, k, a, j, |events| - 1)
            <==> events[|events| - 1]["i"] in Attempted(events[..|events| - 1], k, a, j)
  {
    var n := |events| - 1;
    var prefix := events[..n];
    if AttemptedBefore(events, k, a, j, n) {
      var p :| 0 <= p < n && AttemptOf(events[p], k, a, j) && events[p]["i"] == events[n]["i"];
      assert prefix[p] == events[p];
    }
    if events[n]["i"] in Attempted(prefix, k, a, j) {
      var p :| 0 <= p < |prefix| && AttemptOf(prefix[p], k, a, j) && prefix[p]["i"] == events[n]["i"];
      assert events[p] == prefix[p];
    }
  }

  /** The reference completed set grows by the last event, counted when its identity was attempted earlier. */
  lemma CompletedSnoc(events: seq<Record>, k: nat, a: string, b: string, j: nat)
    requires events != []
    ensures Completed(events, k, a, b, j)
            == Completed(events[..|events| - 1], k, a, b, j)
               + CompletionIds(events[|events| - 1], k, a, b, j, Attempted(events[..|events| - 1], k, a, j))
  {
    var n := |events| - 1;
    var prefix := events[..n];
    var last := CompletionIds(events[n], k, a, b, j, Attempted(prefix, k, a, j));
    var lhs := Completed(events, k, a, b, j);
    var rhs := Completed(prefix, k, a, b, j) + last;
    if "i" in events[n] {
      AttemptedBeforeLast(events, k, a, j);
    }
    forall x | x in lhs ensures x in rhs {
      var q :| 0 <= q < |events| && CompletionOf(events[q], k, a, b, j)
               && AttemptedBefore(events, k, a, j, q) && events[q]["i"] == x;
      if q < n {
        AttemptedBeforeInPrefix(events, k, a, j, q);
        assert prefix[q] == events[q];
      }
    }
    forall x | x in rhs ensures x in lhs {
      if x in Completed(prefix, k, a, b, j) {
        var q :| 0 <= q < |prefix| && CompletionOf(prefix[q], k, a, b, j)
                 && AttemptedBefore(prefix, k, a, j, q) && prefix[q]["i"] == x;
        assert events[q] == prefix[q];
        AttemptedBeforeInPrefix(events, k, a, j, q);
      }
    }
  }

  /**
    The fold computes the reference funnel: for every alternative, the
    attempted set is every identity with an `a` event on it, and the
    completed set is every identity with a `b` event on it that comes after
    one of its own `a` events on it.
  */
  lemma {:induction false} RunComputesFunnel(events: seq<Record>, k: nat, a: string, b: string)
    requires Run(events, k, a, b).Ok?
    ensures forall j :: 0 <= j < k ==>
              Run(events, k, a, b).value[j]
              == Slot(Attempted(events, k, a, j), Completed(events, k, a, b, j))
  {
    if events != [] {
      var n := |events| - 1;
      var prefix := events[..n];
      RunComputesFunnel(prefix, k, a, b);
      var slots := Run(prefix, k, a, b).value;
      StepEffect(slots, events[n], a, b);
      forall j | 0 <= j < k
        ensures Run(events, k, a, b).value[j] == Slot(Attempted(events, k, a, j), Completed(events, k, a, b, j))
      {
        AttemptedSnoc(events, k, a, j);
        CompletedSnoc(events, k, a, b, j);
      }
    }
  }

  /** When the fold fails, it raises the exception of the earliest event that raises one. */
  lemma {:induction false} RunRaisesFirstError(events: seq<Record>, k: nat, a: string, b: string)
    requires Run(events, k, a, b).Err?
    ensures exists p :: 0 <= p < |events| && EventError(events[p], k, a, b) == Some(Run(events, k, a, b).error)
                        && forall q :: 0 <= q < p ==> EventError(events[q], k, a, b).None?
  {
    var n := |events| - 1;
    var prefix := events[..n];
    if Run(prefix, k, a, b).Err? {
      RunRaisesFirstError(prefix, k, a, b);
      var p :| 0 <= p < |prefix| && EventError(prefix[p], k, a, b) == Some(Run(prefix, k, a, b).error)
               && forall q :: 0 <= q < p ==> EventError(prefix[q], k, a, b).None?;
      assert events[p] == prefix[p];
      assert forall q :: 0 <= q < p ==> events[q] == prefix[q];
    } else {
      assert forall q :: 0 <= q < n ==> events[q] == prefix[q];
      assert EventError(events[n], k, a, b) == Some(Run(events, k, a, b).error);
    }
  }

  /** Two events that differ at most in `c` agree on the fields one iteration reads. */
  lemma StepIgnoresCompletionFlag(slots: seq<Slot>, e: Record, o: Record, a: string, b: string)
    requires o - {"c"} == e - {"c"}
    ensures Step(slots, o, a, b) == Step(slots, e, a, b)
  {
    forall key | key in {"n", "a", "i"}
      ensures (key in o <==> key in e) && (key in e ==> o[key] == e[key])
    {
      assert key in o <==> key in o - {"c"};
      assert key in e <==> key in e - {"c"};
      if key in e {
        assert (o - {"c"})[key] == o[key] && (e - {"c"})[key] == e[key];
      }
    }
  }

  /** Events that differ only in their completion flag `c` fold to the same result. */
  lemma {:induction false} RunIgnoresCompletionFlag(events: seq<Record>, others: seq<Record>, k: nat, a: string, b: string)
    requires |others| == |events|
    requires forall p :: 0 <= p < |events| ==> others[p] - {"c"} == events[p] - {"c"}
    ensures Run(others, k, a, b) == Run(events, k, a, b)
  {
    if events != [] {
      var n := |events| - 1;
      RunIgnoresCompletionFlag(events[..n], others[..n], k, a, b);
      if Run(events[..n], k, a, b).Ok? {
        StepIgnoresCompletionFlag(Run(events[..n], k, a, b).value, events[n], others[n], a, b);
      }
    }
  }
}

=== FILE: json.dfy ===
/**
  The decoded form of one line of a storage file. The engine writes each
  record as one JSON object per line and reads it back with a JSON parser;
  the model works on the decoded values directly.
*/
module Json {

  /** The JSON values that the engine's records hold. */
  datatype Value =
    | Null
    | Bool(b: bool)
    | Num(n: int)
    | Str(s: string)
    | Arr(elems: seq<Value>)

  /** A decoded JSON object: field name to value. */
  type Record = map<string, Value>

  /** One line of a file: either a JSON object, or text the parser rejects. */
  datatype Line = Malformed | Parsed(rec: Record)
}

=== FILE: log.dfy ===
/**
  The append-only line files (`tests`, `alts`, `results`) and the two
  queries over them, `find_lines` and `find_line`, plus `append_line`.
  A file that does not exist reads as the empty log.
*/
module Log {

  import opened Wrappers
  import opened Json

  /** The lines of one file, oldest first. */
  type Log = seq<Line>

  /** The keyword arguments of a query: each field the record must hold, with its value. */
  type Pattern = map<string, Value>

  /** Every key of the pattern is present in the record with an equal value; other keys are ignored. */
  predicate Matches(rec: Record, pattern: Pattern)
  {
    forall key :: key in pattern ==> key in rec && rec[key] == pattern[key]
  }

  /** A line is found by a query when it parses and its record matches. */
  predicate LineMatches(line: Line, pattern: Pattern)
  {
    line.Parsed? && Matches(line.rec, pattern)
  }

  /** `find_lines`: the matching records, in file order; unparseable lines are skipped. */
  function FindLines(log: Log, pattern: Pattern): (found: seq<Record>)
    ensures |found| <= |log|
  {
    if log == [] then []
    else
      (if LineMatches(log[0], pattern) then [log[0].rec] else []) + FindLines(log[1..], pattern)
  }

  /** `find_lines` finds a record exactly when some line parses to it and it matches: extra keys are ignored, unparseable lines never match. */
  lemma {:induction false} FindLinesMembers(log: Log, pattern: Pattern)
    ensures forall r :: r in FindLines(log, pattern) <==> Parsed(r) in log && Matches(r, pattern)
  {
    if log != [] {
      FindLinesMembers(log[1..], pattern);
      assert log == [log[0]] + log[1..];
    }
  }

  /** Index of the first matching line, or `|log|` when no line matches. */
  function FirstMatch(log: Log, pattern: Pattern): (k: nat)
    ensures k <= |log|
    ensures k < |log| ==> LineMatches(log[k], pattern)
    ensures forall j :: 0 <= j < k ==> !LineMatches(log[j], pattern)
  {
    if log == [] then 0
    else if LineMatches(log[0], pattern) then 0
    else 1 + FirstMatch(log[1..], pattern)
  }

  /** `find_line`: the earliest matching record, or None. */
  function FindLine(log: Log, pattern: Pattern): (found: Option<Record>)
    ensures found.None? <==> forall i :: 0 <= i < |log| ==> !LineMatches(log[i], pattern)
    ensures found.Some? ==>
              exists i :: 0 <= i < |log| && log[i] == Parsed(found.value) && Matches(found.value, pattern)
                          && forall j :: 0 <= j < i ==> !LineMatches(log[j], pattern)
  {
    var k := FirstMatch(log, pattern);
    if k < |log| then Some(log[k].rec) else None
  }

  /** `append_line`: the file with one more record at its end. */
  function AppendLine(log: Log, rec: Record): (appended: Log)
    ensures |appended| == |log| + 1
    ensures appended[..|log|] == log
    ensures appended[|log|] == Parsed(rec)
  {
    log + [Parsed(rec)]
  }

  /** Scanning two pieces of a file one after the other finds the same records, in the same order, as scanning the whole. */
  lemma {:induction false} FindLinesConcat(front: Log, back: Log, pattern: Pattern)
    ensures FindLines(front + back, pattern) == FindLines(front, pattern) + FindLines(back, pattern)
  {
    if front == [] {
      assert front + back == back;
    } else {
      var whole := front + back;
      var head := if LineMatches(front[0], pattern) then [front[0].rec] else [];
      assert whole[0] == front[0];
      assert whole[1..] == front[1..] + back;
      assert FindLines(whole, pattern) == head + FindLines(front[1..] + back, pattern);
      FindLinesConcat(front[1..], back, pattern);
      assert FindLines(front, pattern) == head + FindLines(front[1..], pattern);
    }
  }

  /** A query over a single line finds its record exactly when it parses and matches. */
  lemma FindLinesSingle(line: Line, pattern: Pattern)
    ensures FindLines([line], pattern) == if LineMatches(line, pattern) then [line.rec] else []
  {
    assert [line][1..] == [];
  }

  /** An unparseable line anywhere in a file changes nothing a query finds. */
  lemma FindLinesSkipsMalformed(front: Log, back: Log, pattern: Pattern)
    ensures FindLines(front + [Malformed] + back, pattern) == FindLines(front + back, pattern)
  {
    FindLinesConcat(front + [Malformed], back, pattern);
    FindLinesConcat(front, [Malformed], pattern);
    FindLinesConcat(front, back, pattern);
    FindLinesSingle(Malformed, pattern);
  }

  /** An append adds at most the new record, at the end of what the query finds. */
  lemma FindLinesAfterAppend(log: Log, rec: Record, pattern: Pattern)
    ensures FindLines(AppendLine(log, rec), pattern)
            == FindLines(log, pattern) + (if Matches(rec, pattern) then [rec] else [])
  {
    FindLinesConcat(log, [Parsed(rec)], pattern);
    FindLinesSingle(Parsed(rec), pattern);
  }

  /** `find_line` returns the first record `find_lines` yields, and None exactly when it yields nothing. */
  lemma {:induction false} FindLineIsFirstFound(log: Log, pattern: Pattern)
    ensures FindLine(log, pattern).None? <==> FindLines(log, pattern) == []
    ensures FindLine(log, pattern).Some? ==> FindLine(log, pattern).value == FindLines(log, pattern)[0]
  {
    if log != [] {
      FindLineIsFirstFound(log[1..], pattern);
      assert FirstMatch(log, pattern) ==
             if LineMatches(log[0], pattern) then 0 else 1 + FirstMatch(log[1..], pattern);
      if !LineMatches(log[0], pattern) {
        assert FindLines(log, pattern) == FindLines(log[1..], pattern);
        if FirstMatch(log[1..], pattern) < |log[1..]| {
          assert log[FirstMatch(log, pattern)] == log[1..][FirstMatch(log[1..], pattern)];
        }
      }
    }
  }

  /** Appending never changes an existing first match; it becomes the first match only when none existed. */
  lemma FindLineAfterAppend(log: Log, rec: Record, pattern: Pattern)
    ensures FindLine(AppendLine(log, rec), pattern)
            == if FindLine(log, pattern).Some? then FindLine(log, pattern)
               else if Matches(rec, pattern) then Some(rec)
               else None
  {
    FindLineIsFirstFound(log, pattern);
    FindLineIsFirstFound(AppendLine(log, rec), pattern);
    FindLinesAfterAppend(log, rec, pattern);
  }

  /** The generator loop of `find_lines`: scan the lines in order, keeping each parsed, matching record. */
  method ScanLines(log: Log, pattern: Pattern) returns (found: seq<Record>)
    ensures found == FindLines(log, pattern)
  {
    found := [];
    var i := 0;
    while i < |log|
      invariant 0 <= i <= |log|
      invariant found == FindLines(log[..i], pattern)
    {
      var line := log[i];
      if line.Parsed? && Matches(line.rec, pattern) {
        found := found + [line.rec];
      }
      assert log[..i + 1] == log[..i] + [line];
      FindLinesConcat(log[..i], [line], pattern);
      FindLinesSingle(line, pattern);
      i := i + 1;
    }
    assert log[..i] == log;
  }

  /** The loop of `find_line`: return the first parsed, matching record met, or None after the last line. */
  method ScanFirst(log: Log, pattern: Pattern) returns (found: Option<Record>)
    ensures found == FindLine(log, pattern)
  {
    var i := 0;
    while i < |log|
      invariant 0 <= i <= |log|
      invariant forall j :: 0 <= j < i ==> !LineMatches(log[j], pattern)
    {
      if LineMatches(log[i], pattern) {
        assert FirstMatch(log, pattern) == i;
        return Some(log[i].rec);
      }
      i := i + 1;
    }
    return None;
  }
}

=== FILE: report.dfy ===
/**
  `ab_report`: look up the test's first definition, scan the test's result
  events in file order through the funnel fold, and return the sizes of
  each alternative's attempted and completed sets.
*/
module Reporting {

  import opened Wrappers
  import opened Json
  import opened Errors
  import opened Log
  import opened Funnel
  import opened Storage

  /** The counts reported for one alternative. */
  datatype Tally = Tally(attempted: nat, completed: nat)

  /** The returned dictionary: the test name, its alternatives, and one tally per alternative. */
  datatype Report = Report(testName: string, alternatives: Value, results: seq<Tally>)

  /** Python's `for alt in test['a']`: a list yields its elements, a string its characters, anything else raises. */
  function SlotCount(v: Value): (r: Result<nat, Error>)
    ensures r.Ok? <==> v.Arr? || v.Str?
    ensures r.Err? ==> r.error == TypeError
    ensures v.Arr? ==> r == Ok(|v.elems|)
    ensures v.Str? ==> r == Ok(|v.s|)
  {
    match v
    case Arr(elems) => Ok(|elems|)
    case Str(chars) => Ok(|chars|)
    case _ => Err(TypeError)
  }

  /** The result events of a test: the lines of `results` whose `t` names it. */
  function TestEvents(s: Store, test: string): seq<Record>
  {
    FindLines(s.results, TestPattern(test))
  }

  lemma SubsetCardinality(small: set<Value>, large: set<Value>)
    requires small <= large
    ensures |small| <= |large|
  {
    assert large == small + (large - small);
  }

  function AbReport(s: Store, test: string, a: string, b: string): (r: Result<Report, Error>)
    ensures r == Err(UnknownTest(test)) <==> Definition(s, test).None?
    ensures r.Ok? ==>
              Definition(s, test).Some? && "a" in Definition(s, test).value
              && r.value.testName == test
              && r.value.alternatives == Definition(s, test).value["a"]
              && SlotCount(r.value.alternatives) == Ok(|r.value.results|)
    ensures Definition(s, test).Some? && "a" !in Definition(s, test).value ==> r == Err(KeyError("a"))
    ensures (Definition(s, test).Some? && "a" in Definition(s, test).value
             && SlotCount(Definition(s, test).value["a"]).Err?) ==> r == Err(TypeError)
    ensures r.Ok? ==> forall j :: 0 <= j < |r.value.results| ==> r.value.results[j].completed <= r.value.results[j].attempted
    ensures Definition(s, test).Some? && "a" in Definition(s, test).value
            && SlotCount(Definition(s, test).value["a"]).Ok? ==>
              (r.Err? <==>
                 exists p :: 0 <= p < |TestEvents(s, test)|
                             && EventError(TestEvents(s, test)[p], SlotCount(Definition(s, test).value["a"]).value, a, b).Some?)
  {
    match Definition(s, test)
    case None => Err(UnknownTest(test))
    case Some(definition) =>
      if "a" !in definition then Err(KeyError("a"))
      else
        var k :- SlotCount(definition["a"]);
        var slots :- Run(TestEvents(s, test), k, a, b);
        assert forall j :: 0 <= j < |slots| ==> |slots[j].completed| <= |slots[j].attempted| by {
          forall j | 0 <= j < |slots| {
            SubsetCardinality(slots[j].completed, slots[j].attempted);
          }
        }
        var tallies := seq(k, j requires 0 <= j < k => Tally(|slots[j].attempted|, |slots[j].completed|));
        Ok(Report(test, definition["a"], tallies))
  }

  /** A report that fails while scanning the events raises the error of the earliest event that raises one. */
  lemma AbReportRaisesFirstError(s: Store, test: string, a: string, b: string)
    requires Definition(s, test).Some? && "a" in Definition(s, test).value
    requires SlotCount(Definition(s, test).value["a"]).Ok?
    requires AbReport(s, test, a, b).Err?
    ensures var events := TestEvents(s, test);
            var k := SlotCount(Definition(s, test).value["a"]).value;
            exists p :: 0 <= p < |events| && EventError(events[p], k, a, b) == Some(AbReport(s, test, a, b).error)
                        && forall q :: 0 <= q < p ==> EventError(events[q], k, a, b).None?
  {
    var k := SlotCount(Definition(s, test).value["a"]).value;
    RunRaisesFirstError(TestEvents(s, test), k, a, b);
  }

  /**
    The report counts, for every alternative, the identities with an `a`
    event on it, and the identities whose `b` event on it follows one of
    their own `a` events on it.
  */
  lemma AbReportCounts(s: Store, test: string, a: string, b: string)
    requires AbReport(s, test, a, b).Ok?
    ensures var r := AbReport(s, test, a, b).value;
            var k := |r.results|;
            forall j :: 0 <= j < k ==>
              r.results[j] == Tally(|Attempted(TestEvents(s, test), k, a, j)|,
                                    |Completed(TestEvents(s, test), k, a, b, j)|)
  {
    var d := Definition(s, test).value;
    var k := SlotCount(d["a"]).value;
    RunComputesFunnel(TestEvents(s, test), k, a, b);
  }

  /** When both steps of the funnel are the same action, nothing is ever completed. */
  lemma AbReportSameAction(s: Store, test: string, a: string)
    requires AbReport(s, test, a, a).Ok?
    ensures forall j :: 0 <= j < |AbReport(s, test, a, a).value.results| ==> AbReport(s, test, a, a).value.results[j].completed == 0
  {
    var r := AbReport(s, test, a, a).value;
    var k := |r.results|;
    AbReportCounts(s, test, a, a);
    forall j | 0 <= j < k ensures r.results[j].completed == 0 {
      assert Completed(TestEvents(s, test), k, a, a, j) == {};
    }
  }
}

=== FILE: scenarios.dfy ===
/** The funnel example: test x with alternatives A and B, users u1 to u3. */
module Scenarios {

  import opened Wrappers
  import opened Json
  import opened Log
  import opened Funnel
  import opened Storage
  import opened Reporting

  function Shown(identity: string, alternative: int): Record
  {
    ResultRecord(Str(identity), "x", alternative, "shown", false)
  }

  function Converted(identity: string, alternative: int): Record
  {
    ResultRecord(Str(identity), "x", alternative, "converted", false)
  }

  /** The fold over the example's events, one event at a time. */
  lemma ExampleRun()
    ensures Run([Shown("u1", 0), Converted("u1", 0), Converted("u2", 0), Shown("u3", 1)], 2, "shown", "converted")
            == Ok([Slot({Str("u1")}, {Str("u1")}), Slot({Str("u3")}, {})])
  {
    var a, b := "shown", "converted";
    var u1, u2, u3 := Str("u1"), Str("u2"), Str("u3");
    var events := [Shown("u1", 0), Converted("u1", 0), Converted("u2", 0), Shown("u3", 1)];
    assert Index(Num(0), 2) == Ok(0) && Index(Num(1), 2) == Ok(1);

    var empty := EmptySlots(2);
    assert empty[0] == Slot({}, {}) && empty[1] == Slot({}, {});
    assert events[..1][..0] == [];

    // u1 is shown alternative 0.
    var e := events[0];
    assert "n" in e && e["n"] == Num(0) && "a" in e && e["a"] == Str(a) && "i" in e && e["i"] == u1;
    assert {} + {u1} == {u1};
    var one := empty[0 := Slot({u1}, {})];
    assert Step(empty, e, a, b) == Ok(one);
    assert events[..1][|events[..1]| - 1] == e;
    assert Run(events[..1], 2, a, b) == Ok(one);

    // u1 converts on alternative 0 after being shown it: counted.
    e := events[1];
    assert "n" in e && e["n"] == Num(0) && "a" in e && e["a"] == Str(b) && "i" in e && e["i"] == u1;
    assert one[0] == Slot({u1}, {}) && one[1] == Slot({}, {});
    assert {} + {u1} == {u1};
    var two := one[0 := Slot({u1}, {u1})];
    assert Step(one, e, a, b) == Ok(two);
    assert events[..2][..1] == events[..1];
    assert events[..2][|events[..2]| - 1] == e;
    assert Run(events[..2], 2, a, b) == Ok(two);

    // u2 converts on alternative 0 without being shown it: not counted.
    e := events[2];
    assert "n" in e && e["n"] == Num(0) && "a" in e && e["a"] == Str(b) && "i" in e && e["i"] == u2;
    assert two[0] == Slot({u1}, {u1}) && two[1] == Slot({}, {});
    assert u2 !in two[0].attempted;
    assert Step(two, e, a, b) == Ok(two);
    assert events[..3][..2] == events[..2];
    assert events[..3][|events[..3]| - 1] == e;
    assert Run(events[..3], 2, a, b) == Ok(two);

    // u3 is shown alternative 1.
    e := events[3];
    assert "n" in e && e["n"] == Num(1) && "a" in e && e["a"] == Str(a) && "i" in e && e["i"] == u3;
    assert {} + {u3} == {u3};
    var four := two[1 := Slot({u3}, {})];
    assert Step(two, e, a, b) == Ok(four);
    assert events[..4][..3] == events[..3];
    assert events[..4] == events;
    assert Run(events, 2, a, b) == Ok(four);
    assert four[0] == Slot({u1}, {u1}) && four[1] == Slot({u3}, {});
    assert four == [Slot({u1}, {u1}), Slot({u3}, {})];
  }

  /** The files after registering "x" with alternatives A and B and recording the example's four events. */
  function ExampleStore(): Store
  {
    Store([Parsed(TestRecord("x", [Str("A"), Str("B")]))],
          [Parsed(Shown("u1", 0)), Parsed(Converted("u1", 0)), Parsed(Converted("u2", 0)), Parsed(Shown("u3", 1))],
          [])
  }

  /** The example's calls produce exactly these files. */
  lemma ExampleWrites()
    ensures
      var s0 := SaveTest(Store([], [], []), "x", [Str("A"), Str("B")]);
      var s1 := RecordEvent(s0.store, Str("u1"), "x", 0, "shown", false);
      var s2 := RecordEvent(s1, Str("u1"), "x", 0, "converted", false);
      var s3 := RecordEvent(s2, Str("u2"), "x", 0, "converted", false);
      s0.outcome == Pass && RecordEvent(s3, Str("u3"), "x", 1, "shown", false) == ExampleStore()
  {
  }

  lemma ExampleDefinition()
    ensures Definition(ExampleStore(), "x") == Some(TestRecord("x", [Str("A"), Str("B")]))
  {
    var r := TestRecord("x", [Str("A"), Str("B")]);
    assert ExampleStore().tests == AppendLine([], r);
    FindLineAfterAppend([], r, TestPattern("x"));
  }

  lemma RecordedEventBelongsToTest(identity: Value, test: string, alternative: int, action: string, completed: bool)
    ensures Matches(ResultRecord(identity, test, alternative, action, completed), TestPattern(test))
  {
    assert forall key :: key in TestPattern(test) ==> key == "t";
  }

  lemma ExampleEvents()
    ensures TestEvents(ExampleStore(), "x") == [Shown("u1", 0), Converted("u1", 0), Converted("u2", 0), Shown("u3", 1)]
  {
    var p := TestPattern("x");
    var e0, e1, e2, e3 := Shown("u1", 0), Converted("u1", 0), Converted("u2", 0), Shown("u3", 1);
    RecordedEventBelongsToTest(Str("u1"), "x", 0, "shown", false);
    RecordedEventBelongsToTest(Str("u1"), "x", 0, "converted", false);
    RecordedEventBelongsToTest(Str("u2"), "x", 0, "converted", false);
    RecordedEventBelongsToTest(Str("u3"), "x", 1, "shown", false);
    var log := ExampleStore().results;
    assert log == [Parsed(e0)] + [Parsed(e1)] + [Parsed(e2)] + [Parsed(e3)];
    FindLinesSingle(Parsed(e0), p);
    FindLinesSingle(Parsed(e1), p);
    FindLinesSingle(Parsed(e2), p);
    FindLinesSingle(Parsed(e3), p);
    FindLinesConcat([Parsed(e0)], [Parsed(e1)], p);
    FindLinesConcat([Parsed(e0)] + [Parsed(e1)], [Parsed(e2)], p);
    FindLinesConcat([Parsed(e0)] + [Parsed(e1)] + [Parsed(e2)], [Parsed(e3)], p);
  }

  /**
    Test "x" has alternatives A and B. u1 is shown alternative 0 and
    converts; u2 converts on alternative 0 without having been shown it;
    u3 is shown alternative 1. The report counts one attempt and one
    completion on A, and one attempt and no completion on B.
  */
  lemma FunnelExample()
    ensures AbReport(ExampleStore(), "x", "shown", "converted")
            == Ok(Report("x", Arr([Str("A"), Str("B")]), [Tally(1, 1), Tally(1, 0)]))
  {
    var s := ExampleStore();
    var d := TestRecord("x", [Str("A"), Str("B")]);
    var slots := [Slot({Str("u1")}, {Str("u1")}), Slot({Str("u3")}, {})];
    ExampleDefinition();
    ExampleEvents();
    ExampleRun();
    assert "a" in d && d["a"] == Arr([Str("A"), Str("B")]);
    assert SlotCount(d["a"]) == Ok(2);
    assert Run(TestEvents(s, "x"), 2, "shown", "converted") == Ok(slots);
    assert |{Str("u1")}| == 1 && |{Str("u3")}| == 1;
    var tallies := seq(2, j requires 0 <= j < 2 => Tally(|slots[j].attempted|, |slots[j].completed|));
    assert tallies[0] == Tally(1, 1) && tallies[1] == Tally(1, 0);
    assert tallies == [Tally(1, 1), Tally(1, 0)];
    assert AbReport(s, "x", "shown", "converted") == Ok(Report("x", d["a"], tallies));
  }
}

=== FILE: storage.dfy ===
/**
  `FSResultStorage`: the three files of one storage directory and the
  operations that write and query them. Each writer follows dabble's
  check-then-append pattern against the first matching line.
*/
module Storage {

  import opened Wrappers
  import opened Json
  import opened Errors
  import opened Log

  /** The contents of `tests.dabble`, `results.dabble` and `alts.dabble`. */
  datatype Store = Store(tests: Log, results: Log, alts: Log)

  /** What a writing operation returns: whether it raised, and the files afterwards. */
  datatype Write = Write(outcome: Outcome<Error>, store: Store)

  // The keyword arguments the operations pass to `find_line` and `append_line`.

  function TestPattern(test: string): Pattern
  {
    map["t" := Str(test)]
  }

  function TestRecord(test: string, alternatives: seq<Value>): Record
  {
    map["t" := Str(test), "a" := Arr(alternatives)]
  }

  function ResultRecord(identity: Value, test: string, alternative: int, action: string, completed: bool): Record
  {
    map["i" := identity, "t" := Str(test), "n" := Num(alternative), "a" := Str(action), "c" := Bool(completed)]
  }

  function CompletionPattern(identity: Value, test: string, alternative: int): Pattern
  {
    map["i" := identity, "t" := Str(test), "n" := Num(alternative), "c" := Bool(true)]
  }

  function AssignmentPattern(identity: Value, test: string): Pattern
  {
    map["i" := identity, "t" := Str(test)]
  }

  function AssignmentRecord(identity: Value, test: string, alternative: int): Record
  {
    map["i" := identity, "t" := Str(test), "n" := Num(alternative)]
  }

  /** The definition of a test: the first line of `tests` that names it. */
  function Definition(s: Store, test: string): Option<Record>
  {
    FindLine(s.tests, TestPattern(test))
  }

  /** The assignment of an identity in a test: the first line of `alts` that names both. */
  function Assignment(s: Store, identity: Value, test: string): Option<Record>
  {
    FindLine(s.alts, AssignmentPattern(identity, test))
  }

  /**
    `save_test`: raise when the test's first definition has other
    alternatives (or none at all), and otherwise append one more definition,
    even an identical one. Only `tests` can change.
  */
  function SaveTest(s: Store, test: string, alternatives: seq<Value>): (w: Write)
    ensures w.store.results == s.results && w.store.alts == s.alts
    ensures w.outcome.Fail? ==> w.store == s
    ensures w.outcome.Pass? ==> w.store.tests == s.tests + [Parsed(TestRecord(test, alternatives))]
    ensures w.outcome.Pass? <==>
              forall i :: 0 <= i < |s.tests| && LineMatches(s.tests[i], TestPattern(test))
                          && (forall j :: 0 <= j < i ==> !LineMatches(s.tests[j], TestPattern(test)))
                          ==> "a" in s.tests[i].rec && s.tests[i].rec["a"] == Arr(alternatives)
    ensures w.outcome == Fail(TestConflict(test)) <==>
              Definition(s, test).Some? && "a" in Definition(s, test).value
              && Definition(s, test).value["a"] != Arr(alternatives)
    ensures w.outcome == Fail(KeyError("a")) <==>
              Definition(s, test).Some? && "a" !in Definition(s, test).value
  {
    match Definition(s, test)
    case Some(existing) =>
      if "a" !in existing then Write(Fail(KeyError("a")), s)
      else if existing["a"] != Arr(alternatives) then Write(Fail(TestConflict(test)), s)
      else Write(Pass, s.(tests := AppendLine(s.tests, TestRecord(test, alternatives))))
    case None =>
      Write(Pass, s.(tests := AppendLine(s.tests, TestRecord(test, alternatives))))
  }

  /** `record`: unconditionally append one result event. Only `results` changes. */
  function RecordEvent(s: Store, identity: Value, test: string, alternative: int, action: string, completed: bool): (t: Store)
    ensures t.tests == s.tests && t.alts == s.alts
    ensures t.results == s.results + [Parsed(ResultRecord(identity, test, alternative, action, completed))]
  {
    s.(results := AppendLine(s.results, ResultRecord(identity, test, alternative, action, completed)))
  }

  /** `is_completed`: some result event, anywhere in the file, carries the identity, test and alternative with `c` true. */
  function IsCompleted(s: Store, identity: Value, test: string, alternative: int): (done: bool)
    ensures done <==>
              exists i :: 0 <= i < |s.results| && s.results[i].Parsed?
                          && var e := s.results[i].rec;
                             "i" in e && e["i"] == identity && "t" in e && e["t"] == Str(test)
                             && "n" in e && e["n"] == Num(alternative) && "c" in e && e["c"] == Bool(true)
  {
    FindLine(s.results, CompletionPattern(identity, test, alternative)).Some?
  }

  /**
    `set_alternative`: raise when the first assignment of the identity in
    the test names another alternative (or none at all), and otherwise
    append one more assignment. Only `alts` can change.
  */
  function SetAlternative(s: Store, identity: Value, test: string, alternative: int): (w: Write)
    ensures w.store.tests == s.tests && w.store.results == s.results
    ensures w.outcome.Fail? ==> w.store == s
    ensures w.outcome.Pass? ==> w.store.alts == s.alts + [Parsed(AssignmentRecord(identity, test, alternative))]
    ensures w.outcome.Pass? <==>
              forall i :: 0 <= i < |s.alts| && LineMatches(s.alts[i], AssignmentPattern(identity, test))
                          && (forall j :: 0 <= j < i ==> !LineMatches(s.alts[j], AssignmentPattern(identity, test)))
                          ==> "n" in s.alts[i].rec && s.alts[i].rec["n"] == Num(alternative)
    ensures w.outcome == Fail(AlternativeConflict(identity)) <==>
              Assignment(s, identity, test).Some? && "n" in Assignment(s, identity, test).value
              && Assignment(s, identity, test).value["n"] != Num(alternative)
    ensures w.outcome == Fail(KeyError("n")) <==>
              Assignment(s, identity, test).Some? && "n" !in Assignment(s, identity, test).value
  {
    match Assignment(s, identity, test)
    case Some(existing) =>
      if "n" !in existing then Write(Fail(KeyError("n")), s)
      else if existing["n"] != Num(alternative) then Write(Fail(AlternativeConflict(identity)), s)
      else Write(Pass, s.(alts := AppendLine(s.alts, AssignmentRecord(identity, test, alternative))))
    case None =>
      Write(Pass, s.(alts := AppendLine(s.alts, AssignmentRecord(identity, test, alternative))))
  }

  /**
    `get_alternative`: the `n` of the first assignment of the identity in
    the test; Python's `None` (here `Null`) when there is no assignment or
    it has no `n`.
  */
  function GetAlternative(s: Store, identity: Value, test: string): (n: Value)
    ensures (forall i :: 0 <= i < |s.alts| ==> !LineMatches(s.alts[i], AssignmentPattern(identity, test))) ==> n == Null
    ensures forall i :: 0 <= i < |s.alts| && LineMatches(s.alts[i], AssignmentPattern(identity, test))
                        && (forall j :: 0 <= j < i ==> !LineMatches(s.alts[j], AssignmentPattern(identity, test)))
                        ==> n == if "n" in s.alts[i].rec then s.alts[i].rec["n"] else Null
    ensures n != Null ==>
              exists i :: 0 <= i < |s.alts| && s.alts[i].Parsed? && "n" in s.alts[i].rec && s.alts[i].rec["n"] == n
                          && Matches(s.alts[i].rec, AssignmentPattern(identity, test))
  {
    match Assignment(s, identity, test)
    case Some(existing) => if "n" in existing then existing["n"] else Null
    case None => Null
  }

  /** After a successful `save_test`, the test's definition has exactly the alternatives given. */
  lemma SaveTestDefines(s: Store, test: string, alternatives: seq<Value>)
    requires SaveTest(s, test, alternatives).outcome.Pass?
    ensures Definition(SaveTest(s, test, alternatives).store, test).Some?
    ensures var d := Definition(SaveTest(s, test, alternatives).store, test).value;
            "a" in d && d["a"] == Arr(alternatives)
  {
    FindLineAfterAppend(s.tests, TestRecord(test, alternatives), TestPattern(test));
  }

  /** Registering the same alternatives twice succeeds both times and stores two identical definitions. */
  lemma SaveTestTwice(s: Store, test: string, alternatives: seq<Value>)
    requires SaveTest(s, test, alternatives).outcome.Pass?
    ensures var w := SaveTest(SaveTest(s, test, alternatives).store, test, alternatives);
            w.outcome.Pass?
            && w.store.tests == s.tests + [Parsed(TestRecord(test, alternatives)), Parsed(TestRecord(test, alternatives))]
  {
    SaveTestDefines(s, test, alternatives);
  }

  /** Once a test is registered, registering other alternatives raises and leaves the files as they were. */
  lemma SaveTestConflicts(s: Store, test: string, alternatives: seq<Value>, others: seq<Value>)
    requires SaveTest(s, test, alternatives).outcome.Pass?
    requires others != alternatives
    ensures var t := SaveTest(s, test, alternatives).store;
            SaveTest(t, test, others) == Write(Fail(TestConflict(test)), t)
  {
    SaveTestDefines(s, test, alternatives);
  }

  /** After a successful `set_alternative`, `get_alternative` returns the alternative set. */
  lemma SetThenGet(s: Store, identity: Value, test: string, alternative: int)
    requires SetAlternative(s, identity, test, alternative).outcome.Pass?
    ensures GetAlternative(SetAlternative(s, identity, test, alternative).store, identity, test) == Num(alternative)
  {
    FindLineAfterAppend(s.alts, AssignmentRecord(identity, test, alternative), AssignmentPattern(identity, test));
  }

  /** Once an identity is assigned, assigning it another alternative in the same test raises and changes nothing. */
  lemma SetAlternativeConflicts(s: Store, identity: Value, test: string, alternative: int, other: int)
    requires SetAlternative(s, identity, test, alternative).outcome.Pass?
    requires other != alternative
    ensures var t := SetAlternative(s, identity, test, alternative).store;
            SetAlternative(t, identity, test, other) == Write(Fail(AlternativeConflict(identity)), t)
            && GetAlternative(t, identity, test) == Num(alternative)
  {
    FindLineAfterAppend(s.alts, AssignmentRecord(identity, test, alternative), AssignmentPattern(identity, test));
  }

  /** Recording a completed event makes `is_completed` true for its identity, test and alternative. */
  lemma RecordCompletes(s: Store, identity: Value, test: string, alternative: int, action: string)
    ensures IsCompleted(RecordEvent(s, identity, test, alternative, action, true), identity, test, alternative)
  {
    var t := RecordEvent(s, identity, test, alternative, action, true);
    assert t.results[|s.results|] == Parsed(ResultRecord(identity, test, alternative, action, true));
  }

  /**
    Recording never turns a completion off, and recording an event that is
    not completed changes no answer of `is_completed`.
  */
  lemma RecordKeepsCompletion(s: Store, identity: Value, test: string, alternative: int, action: string, completed: bool,
                              who: Value, which: string, alt: int)
    ensures IsCompleted(s, who, which, alt) ==>
              IsCompleted(RecordEvent(s, identity, test, alternative, action, completed), who, which, alt)
    ensures !completed ==>
              IsCompleted(RecordEvent(s, identity, test, alternative, action, completed), who, which, alt)
              == IsCompleted(s, who, which, alt)
  {
    var r := ResultRecord(identity, test, alternative, action, completed);
    FindLineAfterAppend(s.results, r, CompletionPattern(who, which, alt));
    if !completed {
      assert "c" in CompletionPattern(who, which, alt);
      assert !Matches(r, CompletionPattern(who, which, alt));
    }
  }

  /** `is_completed` does not depend on where or how often events appear: logs with the same lines give the same answer. */
  lemma IsCompletedIgnoresOrder(s: Store, t: Store, identity: Value, test: string, alternative: int)
    requires forall line :: line in s.results <==> line in t.results
    ensures IsCompleted(s, identity, test, alternative) == IsCompleted(t, identity, test, alternative)
  {
    if IsCompleted(s, identity, test, alternative) {
      var i :| 0 <= i < |s.results| && LineMatches(s.results[i], CompletionPattern(identity, test, alternative));
      assert s.results[i] in t.results;
    }
    if IsCompleted(t, identity, test, alternative) {
      var i :| 0 <= i < |t.results| && LineMatches(t.results[i], CompletionPattern(identity, test, alternative));
      assert t.results[i] in s.results;
    }
  }
}

=== FILE: wrappers.dfy ===
/** Failure-carrying result types shared by every module of the model. */
module Wrappers {

  /** A value that may be absent; Python's `None` return of a lookup. */
  datatype Option<+T> = None | Some(value: T)

  /** A computed value, or the exception that aborted the computation. */
  datatype Result<+T, +E> = Ok(value: T) | Err(error: E) {

    predicate IsFailure() {
      Err?
    }

    function PropagateFailure<U>(): Result<U, E>
      requires Err?
    {
      Err(error)
    }

    function Extract(): T
      requires Ok?
    {
      value
    }
  }

  /** The outcome of an operation that returns nothing but may raise. */
  datatype Outcome<+E> = Pass | Fail(error: E)
}
